=== FILE: README.md ===
# Image optimizer upload route, modelled in Dafny

This project models the server side of the image optimizer: the Express route
`POST /api/upload` in `server/routes/upload.js`. A request carries one image
file part (`image`) and an optional `format` field. The route:

1. admits the file only if its declared MIME type is JPEG, PNG, GIF or WebP and it
   is at most 10 MiB;
2. stores it as `<timestamp>-<random><ext>` in the upload directory;
3. picks an encoder from `format` (default `webp`, quality 80 everywhere);
4. writes `optimized-<timestamp>.<format>` next to the input;
5. replies with the bytes labelled `image/<format>`, or with a 500 error when
   encoding fails or when Node's `setHeader` refuses that label;
6. on both branches, schedules a timer that deletes the input and then the output
   with `safeUnlink`. That helper makes up to 3 attempts, with a linearly growing
   wait between them. It treats a missing file as deleted, and logs, without ever
   throwing, when every attempt fails.

Modules, one per file:

- `Options` (`options.dfy`): optional values.
- `Decimal` (`decimal.dfy`): the decimal text JavaScript produces for the clock
  reading and the random suffix, and reading it back.
- `Paths` (`paths.dfy`): Node's POSIX `path.join`, `path.dirname` and
  `path.extname`. An absolute normalised path is a sequence of segments.
- `Ingress` (`ingress.dfy`): the file filter and the size limit.
- `Naming` (`naming.dfy`): the stored input name, the output name and their paths.
- `Negotiation` (`negotiation.dfy`): the format default, encoder dispatch and
  `Content-Type`.
- `Unlink` (`unlink.dfy`): `safeUnlink`. The answers to successive unlink calls
  come from an oracle `outcomeAt: nat -> Attempt` (`Ok | Enoent | OtherErr`).
  It is written both as a recursive function and as a loop shaped like the
  source's `for`. A file-system layer on top of it gives idempotent deletion.
- `Handler` (`handler.dfy`): the handler's branches, the cleanup it schedules
  and the state after that cleanup runs.

Behaviour of the code as written that the proofs make explicit:

- The header and the file extension both come from the requested string, not
  from the encoder used. `avif`, which the upload form offers, produces WebP
  bytes labelled `image/avif`. `jpg` produces JPEG bytes labelled `image/jpg`.
  The header is truthful exactly for `webp`, `jpeg` and `png`
  (`Negotiation.HeaderTruthfulIff`).
- The output name has no random part. Two requests in the same millisecond that
  ask for the same format get the same output path
  (`Naming.OutputNameCollidesIff`).
- `format` is joined into the path unchecked. A format such as
  `/../../victim` puts the output file outside the upload directory
  (`Naming.SlashInFormatEscapes`). The cleanup timer later unlinks exactly
  that path.
- A format holding a character Node refuses in a header value (anything but tab,
  printable ASCII and 0x80 to 0xff; a line feed, say) is encoded and written,
  and then `res.set` throws. The request is answered with 500, and both files
  are still scheduled for deletion (`Handler.RefusedHeaderIsServerError`).

## Model

| member | source | states |
|---|---|---|
| Ingress.Admit | server/routes/upload.js:26-41 | A missing part is reported as no file. An admitted part is the request's own part, has one of the allowed types and is within the size limit. |
| Ingress.AdmitIff | server/routes/upload.js:26-41 | A file is admitted iff it is present, its type is one of image/jpeg, image/png, image/gif or image/webp, and its size is at most 10485760 bytes. Every other type is refused as invalid. An allowed type over the limit is refused as too large. |
| Decimal.Show | server/routes/upload.js:20 | A clock reading or suffix is rendered as a non-empty string of decimal digits, with no leading zero except for `0` itself. |
| Decimal.ValueShow | server/routes/upload.js:20 | Reading the digits back gives the number that was rendered. |
| Naming.StorageFilename | server/routes/upload.js:19-22 | The stored name is exactly the decimal clock reading, a dash, the decimal suffix and the extension of the client's file name, with no leading zeros. It is a single plain path segment that starts with a digit, and it decodes back to those three fields. |
| Naming.StoredNameRoundTrip | server/routes/upload.js:20-21 | `<timestamp>-<suffix><ext>` is read back exactly for every extension that does not start with a digit. |
| Naming.StorageFilenameInjective | server/routes/upload.js:20-21 | Two uploads get the same stored name only if their clock reading, suffix and extension all coincide. |
| Paths.ExtNameShape | server/routes/upload.js:21 | `path.extname` gives a suffix of the last path component. It is either empty or a dot followed by text with no dot and no slash. It is empty exactly for `..` or a component with no dot after its first character. |
| Paths.Dirname | server/routes/upload.js:76 | `path.dirname` drops the last segment: the path is its dirname plus its last segment, and the root is its own dirname. |
| Paths.Join | server/routes/upload.js:75-78 | `path.join` of a normalised directory and a name stays normalised. A plain segment is appended as the last segment, and `..` gives the directory's dirname. |
| Naming.InputPath | server/routes/upload.js:19-22 | The stored input is the upload directory plus the storage name as one more segment, so it lies directly in the upload directory, which is its dirname. |
| Naming.OutputName | server/routes/upload.js:77 | The name is exactly `optimized-`, the decimal clock reading with no leading zeros, a dot and the format. It is read back to its clock reading and format for every format string, and it is one plain path segment when the format has no slash. |
| Naming.OutputNameCollidesIff | server/routes/upload.js:75-78 | Output names coincide iff both the clock reading and the format coincide. There is no random part. |
| Naming.OutputPath | server/routes/upload.js:75-78 | For a format with no slash, the output path is the input's directory plus the output name. |
| Naming.OutputBesideInput | server/routes/upload.js:73-78 | For a format with no slash, input and output both lie directly in the upload directory and are different files. |
| Naming.SlashInFormatEscapes | server/routes/upload.js:74-78 | The format `/../../<target>` puts the output at `<target>` next to the upload directory, outside it, for every clock reading. |
| Negotiation.RequestedFormat | server/routes/upload.js:74 | The format is never empty. It is the field when the field is a non-empty string, and `webp` when the field is absent or empty. Neither case is an error. |
| Negotiation.RequestedFormatIdempotent | server/routes/upload.js:74 | Negotiating the negotiated format again changes nothing. |
| Negotiation.Dispatch | server/routes/upload.js:88-101 | Every branch passes quality 80. |
| Negotiation.DispatchCases | server/routes/upload.js:88-101 | Dispatch is total. JPEG is chosen exactly for `jpeg` and `jpg`, PNG exactly for `png`, and WebP for every other string. |
| Negotiation.ContentType | server/routes/upload.js:110 | The header is `image/` followed by the requested string itself, whatever the encoder. |
| Negotiation.ContentTypeValidIff | server/routes/upload.js:110 | Node accepts the `image/<format>` header value iff it accepts every character of the format. |
| Negotiation.LineFeedRefused | server/routes/upload.js:110 | A format holding a line feed cannot be sent as a header. |
| Negotiation.ClientFormatsLabelled | client/src/components/FormatSelector.jsx:2 | Every format the form offers makes a header value Node accepts. |
| Negotiation.HeaderTruthfulIff | server/routes/upload.js:88-110 | The header equals the media type of the encoder actually used iff the format is `webp`, `jpeg` or `png`. |
| Negotiation.AvifMislabelled | client/src/components/FormatSelector.jsx:2 | Of the formats the form offers, only `avif` is mislabelled: it is encoded as WebP but sent as `image/avif`. |
| Unlink.AttemptsFrom | server/routes/upload.js:45-61 | From attempt i on, attempts follow the oracle in order and stay within the budget. Every attempt but the last failed with a non-ENOENT error, and a wait of `delay*(i+k+1)` follows each of those. A run ends deleted on Ok, absent on ENOENT, and gives up only on a final non-ENOENT failure after the whole budget. |
| Unlink.SafeUnlinkRun | server/routes/upload.js:44-62 | A zero budget makes no attempt and logs nothing. Otherwise the run is as above from attempt 0. |
| Unlink.SafeUnlink | server/routes/upload.js:44-62 | The loop-shaped rendition satisfies the same run description. |
| Unlink.RunFromUnique | server/routes/upload.js:44-62 | The run description determines the run, so the loop and the recursive function agree. |
| Unlink.LoopMatchesRecursion | server/routes/upload.js:44-62 | Any run meeting the description of the loop's result equals `SafeUnlinkRun`. |
| Unlink.SettlesIffSomeAttemptSucceeds | server/routes/upload.js:47-57 | With a positive budget, the call settles iff some attempt within the budget answers Ok or ENOENT, and it stops at the first such answer. It logs iff all `maxRetries` attempts fail with another error. |
| Unlink.WaitsBounded | server/routes/upload.js:54-59 | There is no wait after the last attempt: fewer waits than the budget, each at most `delay*(maxRetries-1)`. |
| Unlink.DeleteFile | server/routes/upload.js:44-62 | Against a file system, `safeUnlink` removes the path and nothing else, or changes nothing. It gives up and logs iff the file exists and each of the three attempts meets a fault; the path is gone iff nothing was logged. A missing path gives a single ENOENT attempt and no change. |
| Unlink.GivesUpIffFaulted | server/routes/upload.js:47-59 | Against an existing file, the default three-attempt run logs iff every attempt meets a fault; against a missing file it never logs. |
| Unlink.DeleteIdempotent | server/routes/upload.js:50-53 | Once a deletion has not given up, deleting the same path again changes nothing, logs nothing and waits for nothing. |
| Handler.CleanupOf | server/routes/upload.js:114-121 | The timer runs after 100 ms. It lists exactly the assigned paths, input first and output last. |
| Handler.Handle | server/routes/upload.js:64-141 | 400 iff there is no file, with error `No image file provided`. A part the middleware refuses is answered outside the route with the reason the middleware gave. 200 iff admitted, encoded and the format is a value Node accepts in a header. 500 iff admitted and either encoding failed or the header was refused, with error `Failed to process image`. The details are the failure's message, or the header error. Cleanup is scheduled iff the file was admitted, in both branches, and it lists exactly the input path and then the output path. The encoder is the one the format dispatches to. A success sends the bytes labelled `image/<format>` and leaves both files. A failure leaves the input and, if the encoder wrote it, the output. A request without cleanup created nothing. |
| Handler.Respond | server/routes/upload.js:73-139 | Once the file is stored: 200 with the bytes labelled `image/<format>` iff encoding succeeded and the header is accepted; 500 otherwise. Both outcomes schedule the input and then the output after 100 ms. The input is always among the created files, and nothing but input and output is. |
| Handler.Sweep | server/routes/upload.js:114-121 | Running the timer's deletions removes only listed paths. A listed path still present afterwards had its deletion give up and log. |
| Handler.SweepKeepsOnlyFaulted | server/routes/upload.js:44-62 | In the timer's run, the k-th deletion gives up, and the k-th listed path survives, only if every attempt of that deletion met a fault. |
| Handler.CleanupLeavesNothingBehind | server/routes/upload.js:113-134 | After the scheduled cleanup of an admitted request, on either branch, a created file remains only if its deletion logged after every one of its three attempts met a fault. Files outside the schedule are untouched. |
| Handler.HeaderAndExtensionAgree | server/routes/upload.js:75-110 | For a format with no slash whose characters Node accepts in a header, a successful encoding is answered with the image. Its header names exactly the format the output file name carries, and the output lies in the upload directory. |
| Handler.RefusedHeaderIsServerError | server/routes/upload.js:110-139 | For a slash-free format Node refuses in a header, a successful encoding is answered with 500 and the header error. Both files written are scheduled for deletion. |
| Handler.AvifRequestGetsLabelledWebP | server/routes/upload.js:88-111 | A successful `avif` request is answered with WebP bytes (quality 80) labelled `image/avif`. |
| Handler.MissingFormatMeansWebP | server/routes/upload.js:74 | With the field absent or empty, a successful request is answered as WebP, labelled `image/webp`. |
| Handler.PlainTextNeverStored | server/routes/upload.js:26-33 | A `text/plain` part is refused by the filter. Nothing is created and no cleanup is scheduled. |

## Left out

- Resizing and encoding by `sharp` (800 px, no enlargement, `fit: inside`): the step is an opaque `Transcode` outcome, either bytes or an error. The error may leave an output file behind. A failure of `fs.readFileSync` is folded into that error.
- Creating the upload directory (lines 10-18): the directory is a parameter, assumed already normalised and absolute.
- The middleware's own wiring is not modelled: the HTTP status of its rejections, "unexpected field" errors, several files, and removing a partly written oversized file.
- `Date.now()` and `Math.round(Math.random() * 1E9)` are opaque naturals. The bound 0..10^9 on the suffix is not constrained. Uniqueness of names under concurrent requests is probabilistic and is stated only as injectivity of the naming.
- Timers and concurrency are not modelled: the 100 ms deferral and the retry waits are recorded as requested delays in milliseconds, not performed. Running cleanup after the response, and Node's clamping of timer delays, are not modelled.
- Unlink.SafeUnlinkRun: `maxRetries` and `delay` are naturals. The route only ever uses the defaults 3 and 100, so negative values are not modelled. The content of the log line is not modelled.
- Node's `setHeader` character check and its error message are restated in `Negotiation.HeaderValueOk` and `Handler.HeaderErrorMessage`. Node's own source is not part of this model. Express adds no charset to an `image/*` type, so the value set is exactly `image/<format>`.
- Paths.Join: the trailing slash that `path.join` keeps when the joined name ends in `/` is not modelled, because a path is a sequence of segments.
- Negotiation.RequestedFormat: a repeated `format` field, which the body parser may turn into an array, is not modelled. The field is an optional string.
- `server/index.js` (CORS and mounting) and the client pages and components are not modelled, except that the form offers `jpeg`, `webp`, `avif` and `png`. The client's `formatBytes` uses floating point.

=== FILE: decimal.dfy ===
/**
  Decimal text of non-negative integers, as JavaScript produces it when a
  millisecond timestamp or a rounded random number is concatenated with a
  string (plain digits, no sign, no leading zero; exponent notation only
  starts at 10^21, far above any value the route produces).
 */
module Decimal {

  predicate IsDigit(c: char) {
    '0' <= c <= '9'
  }

  predicate AllDigits(s: string) {
    forall i :: 0 <= i < |s| ==> IsDigit(s[i])
  }

  function DigitChar(d: nat): (c: char)
    requires d < 10
    ensures IsDigit(c)
  {
    (48 + d) as char
  }

  function DigitValue(c: char): (d: nat)
    requires IsDigit(c)
    ensures d < 10
    ensures DigitChar(d) == c
  {
    c as int - 48
  }

  /** The decimal rendering of `n`. */
  function Show(n: nat): (s: string)
    ensures |s| > 0 && AllDigits(s)
    ensures s[0] == '0' <==> n == 0
    ensures n == 0 ==> s == "0"
  {
    if n < 10 then [DigitChar(n)] else Show(n / 10) + [DigitChar(n % 10)]
  }

  /** The number a string of decimal digits denotes. */
  function Value(s: string): nat
    requires AllDigits(s)
  {
    if s == [] then 0 else 10 * Value(s[..|s| - 1]) + DigitValue(s[|s| - 1])
  }

  /** Reading back the rendering of `n` gives `n`. */
  lemma {:induction false} ValueShow(n: nat)
    ensures Value(Show(n)) == n
  {
    if n >= 10 {
      var s := Show(n);
      assert s[..|s| - 1] == Show(n / 10);
      ValueShow(n / 10);
    }
  }

  /** Length of the longest prefix of `s` made only of digits. */
  function DigitRun(s: string): (k: nat)
    ensures k <= |s|
    ensures AllDigits(s[..k])
    ensures k < |s| ==> !IsDigit(s[k])
  {
    if s == [] || !IsDigit(s[0]) then 0
    else
      var k := 1 + DigitRun(s[1..]);
      assert s[..k] == [s[0]] + s[1..][..k - 1];
      k
  }

  lemma {:induction false} DigitRunOfDigits(d: string, rest: string)
    requires AllDigits(d)
    requires rest == [] || !IsDigit(rest[0])
    ensures DigitRun(d + rest) == |d|
  {
    if d != [] {
      assert (d + rest)[1..] == d[1..] + rest;
      DigitRunOfDigits(d[1..], rest);
    }
  }
}

=== FILE: handler.dfy ===
/**
  The `POST /api/upload` handler: admission by the middleware, the paths
  it assigns, the encoder it selects, the reply, and the cleanup it
  schedules on both the success and the error branch. The encoding step
  itself is an opaque outcome.
 */
module Handler {
  import opened Options
  import opened Paths
  import opened Ingress
  import opened Naming
  import opened Negotiation
  import opened Unlink

  /** The parts of a request the route reads: the `image` file part and the `format` field. */
  datatype Request = Request(file: Option<Part>, format: Option<string>)

  /** The clock readings and the random suffix drawn while handling one request. */
  datatype Draws = Draws(storedAt: nat, suffix: nat, outputAt: nat)

  /** What the resize-and-encode step did: the encoded bytes, or an error and whether it left an output file. */
  datatype Transcode = Encoded(bytes: seq<bv8>) | Failed(message: string, leftOutput: bool)

  datatype Reply =
    | MiddlewareRejected(reason: Rejection)       // the route is never entered
    | BadRequest(error: string)                   // 400
    | Image(contentType: string, body: seq<bv8>)  // 200
    | ServerError(error: string, details: string) // 500

  const NoImageMessage := "No image file provided"
  const FailureMessage := "Failed to process image"

  /** The message of the error `setHeader` throws for a value with a refused character. */
  const HeaderErrorMessage := "Invalid character in header content [\"Content-Type\"]"

  /** Milliseconds the cleanup timer waits before deleting. */
  const CleanupDelay: nat := 100

  /** The HTTP status the route itself sets; a middleware rejection is answered outside it. */
  function Status(r: Reply): Option<nat> {
    match r
    case MiddlewareRejected(_) => None
    case BadRequest(_) => Some(400)
    case Image(_, _) => Some(200)
    case ServerError(_, _) => Some(500)
  }

  /** A deferred deletion of the listed paths, one after the other. */
  datatype Cleanup = Cleanup(delay: nat, paths: seq<Path>)

  /**
    The cleanup timer's work: the input path if one was assigned, then the
    output path if one was assigned.
   */
  function CleanupOf(inputPath: Option<Path>, outputPath: Option<Path>): (c: Cleanup)
    ensures c.delay == CleanupDelay
    ensures forall p :: p in c.paths <==> inputPath == Some(p) || outputPath == Some(p)
    ensures |c.paths| == (if inputPath.Some? then 1 else 0) + (if outputPath.Some? then 1 else 0)
    ensures inputPath.Some? ==> c.paths[0] == inputPath.value
    ensures outputPath.Some? ==> c.paths[|c.paths| - 1] == outputPath.value
  {
    Cleanup(CleanupDelay,
      (if inputPath.Some? then [inputPath.value] else []) + (if outputPath.Some? then [outputPath.value] else []))
  }

  /** The outcome of one request: the reply, the files it left on disk, the encoding used, the cleanup scheduled. */
  datatype Handled = Handled(reply: Reply, created: set<Path>, encoding: Option<Encoding>, cleanup: Option<Cleanup>)

  /**
    The request as the route handles it. Without a file it answers 400 and
    schedules nothing. With a file it stores the input, derives the format,
    the output path and the encoder, and replies with the encoded bytes
    labelled `image/<format>`; an encoding failure, or a format `setHeader`
    refuses, is answered with 500 instead. Whatever happens after the file
    is stored, the deletion of the input and then the output is scheduled.
   */
  function Handle(uploadDir: Path, req: Request, draws: Draws, transcode: Transcode): (h: Handled)
    requires Normal(uploadDir)
    ensures Status(h.reply) == Some(400) <==> req.file.None?
    ensures req.file.None? ==> h.reply == BadRequest("No image file provided")
    ensures Status(h.reply) == Some(200) <==>
      Admit(req.file).Accepted? && transcode.Encoded? && HeaderValueOk(RequestedFormat(req.format))
    ensures Status(h.reply) == Some(500) <==>
      Admit(req.file).Accepted? && (transcode.Failed? || !HeaderValueOk(RequestedFormat(req.format)))
    ensures Admit(req.file).Refused? ==> h.reply == MiddlewareRejected(Admit(req.file).reason)
    ensures h.cleanup.Some? <==> Admit(req.file).Accepted?
    ensures h.cleanup.None? ==> h.created == {} && h.encoding.None?
    ensures h.cleanup.Some? ==>
      && |h.cleanup.value.paths| == 2
      && h.cleanup.value.delay == 100
      && (forall p :: p in h.created ==> p in h.cleanup.value.paths)
      && DirectlyIn(h.cleanup.value.paths[0], uploadDir)
      && h.cleanup.value.paths[0] in h.created
    ensures Admit(req.file).Accepted? ==>
      var input := InputPath(uploadDir, draws.storedAt, draws.suffix, Admit(req.file).part.originalname);
      var format := RequestedFormat(req.format);
      var output := OutputPath(input, draws.outputAt, format);
      && h.cleanup.value.paths == [input, output]
      && h.encoding == Some(Dispatch(format))
      && (transcode.Encoded? ==> h.created == {input, output})
      && (transcode.Encoded? && HeaderValueOk(format) ==>
            h.reply == Image("image/" + format, transcode.bytes))
      && (transcode.Encoded? && !HeaderValueOk(format) ==>
            h.reply == ServerError("Failed to process image", HeaderErrorMessage))
      && (transcode.Failed? ==>
            && h.reply == ServerError("Failed to process image", transcode.message)
            && h.created == {input} + (if transcode.leftOutput then {output} else {}))
  {
    match Admit(req.file)
    case NoFile => Handled(BadRequest(NoImageMessage), {}, None, None)
    case Refused(reason) => Handled(MiddlewareRejected(reason), {}, None, None)
    case Accepted(part) =>
      var inputPath := InputPath(uploadDir, draws.storedAt, draws.suffix, part.originalname);
      var format := RequestedFormat(req.format);
      var outputPath := OutputPath(inputPath, draws.outputAt, format);
      Respond(inputPath, outputPath, format, transcode)
  }

  /**
    The route once the file is stored at `input` and the output path is
    assigned: it encodes to `output`, sets the header and sends the bytes;
    a failure at any of these steps is answered with 500. Both outcomes
    schedule the deletion of `input` and then `output`.
   */
  function Respond(input: Path, output: Path, format: string, transcode: Transcode): (h: Handled)
    ensures h.cleanup == Some(Cleanup(100, [input, output]))
    ensures h.encoding == Some(Dispatch(format))
    ensures input in h.created && h.created <= {input, output}
    ensures Status(h.reply) == Some(200) <==> transcode.Encoded? && HeaderValueOk(format)
    ensures Status(h.reply) == Some(500) <==> transcode.Failed? || !HeaderValueOk(format)
    ensures transcode.Encoded? ==> h.created == {input, output}
    ensures transcode.Encoded? && HeaderValueOk(format) ==>
      h.reply == Image("image/" + format, transcode.bytes)
    ensures transcode.Encoded? && !HeaderValueOk(format) ==>
      h.reply == ServerError("Failed to process image", HeaderErrorMessage)
    ensures transcode.Failed? ==>
      && h.reply == ServerError("Failed to process image", transcode.message)
      && h.created == {input} + (if transcode.leftOutput then {output} else {})
  {
    var cleanup := CleanupOf(Some(input), Some(output));
    assert cleanup.paths == [input, output];
    ContentTypeValidIff(format);
    match transcode
    case Encoded(bytes) =>
      var reply :=
        if HeaderValueOk(ContentType(format)) then Image(ContentType(format), bytes)
        else ServerError(FailureMessage, HeaderErrorMessage);
      Handled(reply, {input, output}, Some(Dispatch(format)), Some(cleanup))
    case Failed(message, leftOutput) =>
      Handled(ServerError(FailureMessage, message),
        {input} + (if leftOutput then {output} else {}), Some(Dispatch(format)), Some(cleanup))
  }

  /** The file system after the cleanup timer ran, and each deletion's run. */
  datatype Swept = Swept(files: FileSystem, runs: seq<UnlinkRun>)

  /**
    The cleanup timer's body: `safeUnlink` on each path in turn, the k-th
    deletion seeing the faults `fault(k)`. It only removes listed paths,
    and a listed path still present afterwards had its deletion give up
    and log.
   */
  function Sweep(fs: FileSystem, paths: seq<Path>, fault: nat -> nat -> bool): (s: Swept)
    ensures |s.runs| == |paths|
    ensures s.files <= fs
    ensures forall p :: p in fs && p !in paths ==> p in s.files
    ensures forall k :: 0 <= k < |paths| && paths[k] in s.files ==> s.runs[k].Logged()
    decreases |paths|
  {
    if paths == [] then Swept(fs, [])
    else
      var d := DeleteFile(fs, paths[0], fault(0));
      var rest := Sweep(d.files, paths[1..], (k: nat) => fault(k + 1));
      Swept(rest.files, [d.run] + rest.runs)
  }

  /**
    A run of the timer gives up on a path, or leaves a listed path in
    place, only when every attempt of that deletion met a fault.
   */
  lemma {:induction false} SweepKeepsOnlyFaulted(fs: FileSystem, paths: seq<Path>, fault: nat -> nat -> bool, k: nat)
    requires k < |paths|
    ensures var s := Sweep(fs, paths, fault);
      && (s.runs[k].Logged() ==> EveryAttemptFaults(fault(k)))
      && (paths[k] in s.files ==> EveryAttemptFaults(fault(k)))
    decreases k
  {
    var d := DeleteFile(fs, paths[0], fault(0));
    var shifted := (j: nat) => fault(j + 1);
    var rest := Sweep(d.files, paths[1..], shifted);
    if k > 0 {
      SweepKeepsOnlyFaulted(d.files, paths[1..], shifted, k - 1);
      assert shifted(k - 1) == fault(k);
    }
  }

  /**
    For every request the route handles with a file, success or failure:
    once the scheduled cleanup has run, no file the request created is
    left unless its deletion gave up, logged, and met a fault on each of
    its attempts; no file outside the schedule is touched.
   */
  lemma CleanupLeavesNothingBehind(fs: FileSystem, uploadDir: Path, req: Request, draws: Draws,
                                   transcode: Transcode, fault: nat -> nat -> bool)
    requires Normal(uploadDir)
    requires Admit(req.file).Accepted?
    ensures var h := Handle(uploadDir, req, draws, transcode);
      var paths := h.cleanup.value.paths;
      var s := Sweep(fs + h.created, paths, fault);
      && (forall p :: p in h.created && p in s.files ==>
            exists k :: 0 <= k < |paths| && paths[k] == p && s.runs[k].Logged() && EveryAttemptFaults(fault(k)))
      && (forall p :: p in fs && p !in paths ==> p in s.files)
  {
    var h := Handle(uploadDir, req, draws, transcode);
    var paths := h.cleanup.value.paths;
    var s := Sweep(fs + h.created, paths, fault);
    forall p | p in h.created && p in s.files
      ensures exists k :: 0 <= k < |paths| && paths[k] == p && s.runs[k].Logged() && EveryAttemptFaults(fault(k))
    {
      var k :| 0 <= k < |paths| && paths[k] == p;
      SweepKeepsOnlyFaulted(fs + h.created, paths, fault, k);
    }
  }

  /**
    The `Content-Type` of a successful reply and the extension of the
    output file come from the same requested string: for a slash-free
    format that `setHeader` accepts, the reply is the image and the output
    name reads back to exactly the format the header names.
   */
  lemma HeaderAndExtensionAgree(uploadDir: Path, req: Request, draws: Draws, bytes: seq<bv8>)
    requires Normal(uploadDir)
    requires Admit(req.file).Accepted?
    requires '/' !in RequestedFormat(req.format)
    requires HeaderValueOk(RequestedFormat(req.format))
    ensures var h := Handle(uploadDir, req, draws, Encoded(bytes));
      var output := h.cleanup.value.paths[1];
      var name := output[|output| - 1];
      && h.reply.Image?
      && ParseOutputName(name).Some?
      && h.reply.contentType == "image/" + ParseOutputName(name).value.format
      && DirectlyIn(output, uploadDir)
  {
    var part := Admit(req.file).part;
    var format := RequestedFormat(req.format);
    OutputBesideInput(uploadDir, draws.storedAt, draws.suffix, part.originalname, draws.outputAt, format);
  }

  /**
    A format holding a character `setHeader` refuses, such as a line feed,
    turns a successful encoding into a 500 whose details are the header
    error, while both files the request wrote stay scheduled for deletion.
   */
  lemma RefusedHeaderIsServerError(uploadDir: Path, req: Request, draws: Draws, bytes: seq<bv8>)
    requires Normal(uploadDir)
    requires Admit(req.file).Accepted?
    requires '/' !in RequestedFormat(req.format)
    requires !HeaderValueOk(RequestedFormat(req.format))
    ensures var h := Handle(uploadDir, req, draws, Encoded(bytes));
      && h.reply == ServerError("Failed to process image", HeaderErrorMessage)
      && |h.created| == 2 && h.cleanup.Some? && (forall p :: p in h.created ==> p in h.cleanup.value.paths)
  {
    var part := Admit(req.file).part;
    var format := RequestedFormat(req.format);
    OutputBesideInput(uploadDir, draws.storedAt, draws.suffix, part.originalname, draws.outputAt, format);
  }

  /**
    A request for `avif` (offered by the upload form) that encodes
    successfully gets WebP bytes labelled `image/avif`.
   */
  lemma AvifRequestGetsLabelledWebP(uploadDir: Path, part: Part, draws: Draws, bytes: seq<bv8>)
    requires Normal(uploadDir)
    requires Admit(Some(part)).Accepted?
    ensures var h := Handle(uploadDir, Request(Some(part), Some("avif")), draws, Encoded(bytes));
      h.reply == Image("image/avif", bytes) && h.encoding == Some(Encoding(WebP, 80))
  {
    assert RequestedFormat(Some("avif")) == "avif";
    ClientFormatsLabelled();
    ContentTypeValidIff("avif");
    assert HeaderValueOk("avif");
    AvifMislabelled();
    assert Dispatch("avif") == Encoding(WebP, 80);
  }

  /** With no `format` field, or an empty one, a request is answered as WebP, not with an error. */
  lemma MissingFormatMeansWebP(uploadDir: Path, part: Part, field: Option<string>, draws: Draws, bytes: seq<bv8>)
    requires Normal(uploadDir)
    requires Admit(Some(part)).Accepted?
    requires field.None? || field == Some("")
    ensures var h := Handle(uploadDir, Request(Some(part), field), draws, Encoded(bytes));
      h.reply == Image("image/webp", bytes) && h.encoding == Some(Encoding(WebP, 80))
  {
    assert RequestedFormat(field) == "webp";
    ClientFormatsLabelled();
    ContentTypeValidIff("webp");
    assert HeaderValueOk("webp");
    assert Dispatch("webp") == Encoding(WebP, 80);
    assert ContentType("webp") == "image/webp";
  }

  /** A part declared `text/plain` never reaches the route: nothing is stored or scheduled. */
  lemma PlainTextNeverStored(uploadDir: Path, size: nat, originalname: string, format: Option<string>,
                             draws: Draws, transcode: Transcode)
    requires Normal(uploadDir)
    ensures var h := Handle(uploadDir, Request(Some(Part("text/plain", size, originalname)), format), draws, transcode);
      h.reply == MiddlewareRejected(InvalidFileType) && h.created == {} && h.cleanup.None?
  {
  }
}

=== FILE: ingress.dfy ===
/**
  What the upload middleware lets through to the route: a single file part
  named `image`, admitted only when its declared MIME type is one of four
  image types and its size does not exceed 10 MiB.
 */
module Ingress {
  import opened Options

  /** A file part as the middleware describes it to the route. */
  datatype Part = Part(mimetype: string, size: nat, originalname: string)

  const AllowedTypes: seq<string> := ["image/jpeg", "image/png", "image/gif", "image/webp"]

  /** The middleware's `fileSize` limit in bytes. */
  const MaxFileSize: nat := 10 * 1024 * 1024

  datatype Rejection = InvalidFileType | FileTooLarge

  /** The three ways a request leaves the middleware. */
  datatype Admission = NoFile | Refused(reason: Rejection) | Accepted(part: Part)

  /** The file filter: consulted on the declared type before any byte is stored. */
  predicate FileFilter(mimetype: string) {
    mimetype in AllowedTypes
  }

  /**
    The middleware's verdict on the request's file part. The type filter
    runs when the part starts, before the size limit can trip while it
    streams, so a part wrong on both counts is refused for its type.
   */
  function Admit(file: Option<Part>): (a: Admission)
    ensures a.NoFile? <==> file.None?
    ensures a.Accepted? ==> file == Some(a.part)
    ensures a.Accepted? ==> a.part.size <= MaxFileSize && FileFilter(a.part.mimetype)
  {
    match file
    case None => NoFile
    case Some(p) =>
      if !FileFilter(p.mimetype) then Refused(InvalidFileType)
      else if p.size > MaxFileSize then Refused(FileTooLarge)
      else Accepted(p)
  }

  /**
    A file is admitted iff it is present, its type is one of
    image/jpeg, image/png, image/gif, image/webp, and it is at most
    10485760 bytes; every other type is refused as an invalid type, and an
    allowed type over the limit is refused as too large.
   */
  lemma AdmitIff(file: Option<Part>)
    ensures Admit(file).Accepted? <==>
      file.Some? && file.value.mimetype in {"image/jpeg", "image/png", "image/gif", "image/webp"}
      && file.value.size <= 10485760
    ensures Admit(file) == Refused(InvalidFileType) <==>
      file.Some? && file.value.mimetype !in {"image/jpeg", "image/png", "image/gif", "image/webp"}
    ensures Admit(file) == Refused(FileTooLarge) <==>
      file.Some? && file.value.mimetype in {"image/jpeg", "image/png", "image/gif", "image/webp"}
      && file.value.size > 10485760
  {
  }
}

=== FILE: naming.dfy ===
/**
  Temporary file names: the stored input `<timestamp>-<suffix><ext>` the
  disk storage chooses, and the output `optimized-<timestamp>.<format>`
  the route places in the input's directory. The clock reading and the
  rounded random suffix are opaque naturals.
 */
module Naming {
  import opened Options
  import opened Decimal
  import opened Paths

  /** The decoded fields of a stored input name. */
  datatype StoredParts = StoredParts(timestamp: nat, suffix: nat, ext: string)

  /** The decoded fields of an output name. */
  datatype OutputParts = OutputParts(timestamp: nat, format: string)

  const OutputPrefix := "optimized-"

  function StoredName(timestamp: nat, suffix: nat, ext: string): string {
    Show(timestamp) + "-" + Show(suffix) + ext
  }

  /** Reads a stored name back into its timestamp, suffix and extension. */
  function ParseStoredName(name: string): Option<StoredParts> {
    var i := DigitRun(name);
    if i == 0 || i == |name| || name[i] != '-' then None
    else
      var rest := name[i + 1..];
      var j := DigitRun(rest);
      if j == 0 then None
      else Some(StoredParts(Value(name[..i]), Value(rest[..j]), rest[j..]))
  }

  /** A stored name is read back exactly, for any extension that does not start with a digit. */
  lemma StoredNameRoundTrip(timestamp: nat, suffix: nat, ext: string)
    requires ext == [] || !IsDigit(ext[0])
    ensures ParseStoredName(StoredName(timestamp, suffix, ext)) == Some(StoredParts(timestamp, suffix, ext))
  {
    var A := Show(timestamp);
    var B := Show(suffix);
    assert StoredName(timestamp, suffix, ext) == A + (['-'] + (B + ext));
    ParseDigitsDashDigits(A, B, ext);
    ValueShow(timestamp);
    ValueShow(suffix);
  }

  /** The parser splits digits, a dash, digits and a tail that does not start with a digit. */
  lemma ParseDigitsDashDigits(A: string, B: string, ext: string)
    requires A != [] && AllDigits(A)
    requires B != [] && AllDigits(B)
    requires ext == [] || !IsDigit(ext[0])
    ensures ParseStoredName(A + (['-'] + (B + ext))) == Some(StoredParts(Value(A), Value(B), ext))
  {
    var name := A + (['-'] + (B + ext));
    var rest := B + ext;
    DashSplit(A, rest);
    DigitsThenTail(B, ext);
    ParseDashed(name, |A|, rest, |B|);
  }

  /** How the parser reads a name once its two digit runs and the dash between them are located. */
  lemma ParseDashed(name: string, i: nat, rest: string, j: nat)
    requires 0 < i < |name| && DigitRun(name) == i && name[i] == '-' && name[i + 1..] == rest
    requires 0 < j && DigitRun(rest) == j
    ensures ParseStoredName(name) == Some(StoredParts(Value(name[..i]), Value(rest[..j]), rest[j..]))
  {
  }

  lemma DashSplit(A: string, rest: string)
    requires AllDigits(A)
    ensures var name := A + (['-'] + rest);
      DigitRun(name) == |A| && name[..|A|] == A && name[|A|] == '-' && name[|A| + 1..] == rest
  {
    DigitRunOfDigits(A, ['-'] + rest);
  }

  lemma DigitsThenTail(B: string, ext: string)
    requires AllDigits(B)
    requires ext == [] || !IsDigit(ext[0])
    ensures DigitRun(B + ext) == |B| && (B + ext)[..|B|] == B && (B + ext)[|B|..] == ext
  {
    DigitRunOfDigits(B, ext);
  }

  /**
    The disk storage's name for an upload: clock reading, a dash, the
    random suffix, and the extension of the client's file name. The name
    is a single plain path segment and decodes back to its three fields.
   */
  function StorageFilename(timestamp: nat, suffix: nat, originalname: string): (name: string)
    ensures PlainSegment(name)
    ensures IsDigit(name[0])
    ensures name == Show(timestamp) + "-" + Show(suffix) + ExtName(originalname)
    ensures ParseStoredName(name) == Some(StoredParts(timestamp, suffix, ExtName(originalname)))
  {
    var ext := ExtName(originalname);
    ExtNameShape(originalname);
    StoredNameRoundTrip(timestamp, suffix, ext);
    StoredNamePlain(timestamp, suffix, ext);
    StoredName(timestamp, suffix, ext)
  }

  /** With a slash-free extension the stored name is one plain path segment starting with a digit. */
  lemma StoredNamePlain(timestamp: nat, suffix: nat, ext: string)
    requires '/' !in ext
    ensures PlainSegment(StoredName(timestamp, suffix, ext))
    ensures IsDigit(StoredName(timestamp, suffix, ext)[0])
  {
    var A := Show(timestamp);
    var B := Show(suffix);
    var name := A + (['-'] + (B + ext));
    assert StoredName(timestamp, suffix, ext) == name;
    assert name[|A|] == '-';
    assert name[0] == A[0];
    forall k | 0 <= k < |name|
      ensures name[k] != '/'
    {
      if k < |A| {
        assert name[k] == A[k];
      } else if k == |A| {
      } else if k < |A| + 1 + |B| {
        assert name[k] == B[k - |A| - 1];
      } else {
        assert name[k] == ext[k - |A| - 1 - |B|];
      }
    }
  }

  /** Two uploads get the same stored name only if clock, suffix and extension all coincide. */
  lemma StorageFilenameInjective(t1: nat, s1: nat, o1: string, t2: nat, s2: nat, o2: string)
    requires StorageFilename(t1, s1, o1) == StorageFilename(t2, s2, o2)
    ensures t1 == t2 && s1 == s2 && ExtName(o1) == ExtName(o2)
  {
  }

  /** The text an output name has before its format: prefix, clock reading and the dot. */
  function OutputHead(timestamp: nat): (head: string)
    ensures PlainSegment(head) && head[0] == 'o'
  {
    var A := Show(timestamp);
    var head := OutputPrefix + (A + ".");
    assert head[0] == 'o';
    assert forall k :: |OutputPrefix| <= k < |OutputPrefix| + |A| ==> head[k] == A[k - |OutputPrefix|];
    assert '/' !in head;
    head
  }

  /** Reads an output name back into its clock reading and format. */
  function ParseOutputName(name: string): Option<OutputParts> {
    if |name| < |OutputPrefix| || name[..|OutputPrefix|] != OutputPrefix then None
    else
      var rest := name[|OutputPrefix|..];
      var j := DigitRun(rest);
      if j == 0 || j == |rest| || rest[j] != '.' then None
      else Some(OutputParts(Value(rest[..j]), rest[j + 1..]))
  }

  /** The parser reads the prefix, a run of digits, the dot and everything after it. */
  lemma ParseAfterHead(A: string, format: string)
    requires A != [] && AllDigits(A)
    ensures ParseOutputName(OutputPrefix + (A + ".") + format) == Some(OutputParts(Value(A), format))
  {
    var name := OutputPrefix + (A + ".") + format;
    assert name[..|OutputPrefix|] == OutputPrefix;
    var rest := name[|OutputPrefix|..];
    assert rest == A + ("." + format);
    DigitRunOfDigits(A, "." + format);
    assert rest[..|A|] == A;
    assert rest[|A| + 1..] == format;
  }

  /** A plain segment not starting with a dot stays plain when slash-free text is appended. */
  lemma PlainThenSlashFree(a: string, b: string)
    requires PlainSegment(a) && a[0] != '.'
    ensures '/' !in b ==> PlainSegment(a + b)
  {
    if '/' !in b {
      assert (a + b)[0] == a[0];
      assert forall k :: 0 <= k < |a + b| ==> (a + b)[k] in a || (a + b)[k] in b;
    }
  }

  /**
    The output file name `optimized-<timestamp>.<format>`; unlike the input
    it carries no random part. It reads back to its clock reading and
    format whatever the format string, and it is one plain path segment
    when the format has no slash.
   */
  function OutputName(timestamp: nat, format: string): (name: string)
    ensures name == "optimized-" + Show(timestamp) + "." + format
    ensures ParseOutputName(name) == Some(OutputParts(timestamp, format))
    ensures '/' !in format ==> PlainSegment(name)
  {
    assert OutputHead(timestamp) + format == "optimized-" + Show(timestamp) + "." + format;
    ParseAfterHead(Show(timestamp), format);
    ValueShow(timestamp);
    PlainThenSlashFree(OutputHead(timestamp), format);
    OutputHead(timestamp) + format
  }

  /**
    Output names coincide exactly when clock reading and format do, so two
    requests in the same millisecond asking for the same format collide
    whatever their inputs.
   */
  lemma OutputNameCollidesIff(t1: nat, f1: string, t2: nat, f2: string)
    ensures OutputName(t1, f1) == OutputName(t2, f2) <==> t1 == t2 && f1 == f2
  {
    var n1, n2 := OutputName(t1, f1), OutputName(t2, f2);
    assert ParseOutputName(n1) == Some(OutputParts(t1, f1));
    assert ParseOutputName(n2) == Some(OutputParts(t2, f2));
  }

  /** The input's path: the storage name joined to the upload directory. */
  function InputPath(uploadDir: Path, timestamp: nat, suffix: nat, originalname: string): (p: Path)
    requires Normal(uploadDir)
    ensures p == uploadDir + [StorageFilename(timestamp, suffix, originalname)]
    ensures Normal(p)
    ensures DirectlyIn(p, uploadDir)
    ensures Dirname(p) == uploadDir
  {
    Join(uploadDir, StorageFilename(timestamp, suffix, originalname))
  }

  /** The output's path: the output name joined to the directory of the input. */
  function OutputPath(inputPath: Path, timestamp: nat, format: string): (p: Path)
    requires Normal(inputPath)
    ensures Normal(p)
    ensures '/' !in format ==> p == Dirname(inputPath) + [OutputName(timestamp, format)]
  {
    Join(Dirname(inputPath), OutputName(timestamp, format))
  }

  /**
    For a slash-free format the output lies in the same directory as the
    stored input, and the two paths are different files.
   */
  lemma OutputBesideInput(uploadDir: Path, t: nat, suffix: nat, originalname: string, t2: nat, format: string)
    requires Normal(uploadDir)
    requires '/' !in format
    ensures var input := InputPath(uploadDir, t, suffix, originalname);
      var output := OutputPath(input, t2, format);
      DirectlyIn(input, uploadDir) && DirectlyIn(output, uploadDir) && input != output
  {
    var input := InputPath(uploadDir, t, suffix, originalname);
    var output := OutputPath(input, t2, format);
    assert output[|uploadDir|] == OutputHead(t2) + format;
    assert output[|uploadDir|][0] == 'o';
    assert IsDigit(input[|uploadDir|][0]);
  }

  /** The format climbing two directories up to `target`. */
  function Climb(target: string): string {
    "/../../" + target
  }

  /** The pieces `path.join` sees in the output name of a climbing format. */
  lemma EscapingNamePieces(timestamp: nat, target: string)
    requires PlainSegment(target)
    ensures Split(OutputName(timestamp, Climb(target))) == [OutputHead(timestamp), "..", "..", target]
  {
    ClimbingName(timestamp, target);
    SplitClimbing(OutputHead(timestamp), target);
  }

  lemma ClimbingName(timestamp: nat, target: string)
    ensures OutputName(timestamp, Climb(target)) == OutputHead(timestamp) + "/" + (".." + "/" + (".." + "/" + target))
  {
    var head := OutputHead(timestamp);
    var s3 := ".." + "/" + (".." + "/" + target);
    assert Climb(target) == "/" + s3;
    assert head + ("/" + s3) == head + "/" + s3;
  }

  lemma SplitClimbing(head: string, target: string)
    requires PlainSegment(head) && PlainSegment(target)
    ensures Split(head + "/" + (".." + "/" + (".." + "/" + target))) == [head, "..", "..", target]
  {
    var s2 := ".." + "/" + target;
    var s3 := ".." + "/" + s2;
    SplitSlashFree(head);
    SplitSlashFree("..");
    SplitSlashFree(target);
    SplitAroundSlash("..", target);
    SplitAroundSlash("..", s2);
    SplitAroundSlash(head, s3);
  }

  /**
    A format containing slashes is joined segment by segment: with
    `format = "/../../" + target` the output path is `target` next to the
    upload directory, outside it, for every clock reading.
   */
  lemma SlashInFormatEscapes(uploadDir: Path, t: nat, suffix: nat, originalname: string, t2: nat, target: string)
    requires Normal(uploadDir) && |uploadDir| >= 1
    requires PlainSegment(target)
    ensures var input := InputPath(uploadDir, t, suffix, originalname);
      var output := OutputPath(input, t2, Climb(target));
      output == uploadDir[..|uploadDir| - 1] + [target] && !Below(output, uploadDir)
  {
    var head := OutputHead(t2);
    EscapingNamePieces(t2, target);
    var parts := [head, "..", "..", target];
    var d := uploadDir;
    var up := d[..|d| - 1];
    assert Normal(up);
    assert Resolve(d, parts) == Resolve(d + [head], parts[1..]);
    assert (d + [head])[..|d + [head]| - 1] == d;
    assert Resolve(d + [head], parts[1..]) == Resolve(d, parts[2..]);
    assert Resolve(d, parts[2..]) == Resolve(up, parts[3..]);
    assert Resolve(up, parts[3..]) == Resolve(up + [target], []);
  }
}

=== FILE: negotiation.dfy ===
/**
  Output-format negotiation in the upload route: the requested format
  string, the encoder it selects, and the `Content-Type` it is labelled with.
 */
module Negotiation {
  import opened Options

  const DefaultFormat := "webp"

  /** The quality every encoder branch is given. */
  const Quality: nat := 80

  datatype Encoder = WebP | Jpeg | Png

  /** The encoder chosen and the settings it is called with. */
  datatype Encoding = Encoding(encoder: Encoder, quality: nat)

  /** The output formats the upload form offers. */
  const ClientFormats: seq<string> := ["jpeg", "webp", "avif", "png"]

  /**
    The format of the request: the `format` form field when it is a
    non-empty string, the default otherwise; neither case is an error.
   */
  function RequestedFormat(field: Option<string>): (f: string)
    ensures f != ""
    ensures field.Some? && field.value != "" ==> f == field.value
    ensures field.None? || field.value == "" ==> f == "webp"
  {
    if field.Some? && field.value != "" then field.value else DefaultFormat
  }

  /** The encoder the format selects; anything not handled explicitly falls back to WebP. */
  function Dispatch(format: string): (e: Encoding)
    ensures e.quality == 80
  {
    match format
    case "webp" => Encoding(WebP, Quality)
    case "jpeg" => Encoding(Jpeg, Quality)
    case "jpg" => Encoding(Jpeg, Quality)
    case "png" => Encoding(Png, Quality)
    case _ => Encoding(WebP, Quality)
  }

  /** The header the response is labelled with: built from the requested string, not the encoder. */
  function ContentType(format: string): (h: string)
    ensures |h| == 6 + |format| && h[..6] == "image/" && h[6..] == format
  {
    "image/" + format
  }

  /** A character Node accepts in a header value: tab, printable ASCII, or 0x80 to 0xff. */
  predicate HeaderChar(c: char) {
    c == '\t' || 32 <= c as int <= 126 || 128 <= c as int <= 255
  }

  /** A value `setHeader` stores; any other value makes it throw instead. */
  predicate HeaderValueOk(v: string) {
    forall i :: 0 <= i < |v| ==> HeaderChar(v[i])
  }

  /**
    The `image/` prefix is always acceptable, so setting the header fails
    exactly when the requested format holds a character Node refuses.
   */
  lemma {:induction false} ContentTypeValidIff(format: string)
    ensures HeaderValueOk(ContentType(format)) <==> HeaderValueOk(format)
  {
    var h := ContentType(format);
    if HeaderValueOk(format) {
      forall i | 0 <= i < |h|
        ensures HeaderChar(h[i])
      {
        if i >= 6 {
          assert h[i] == format[i - 6];
        }
      }
    }
    if HeaderValueOk(h) {
      forall i | 0 <= i < |format|
        ensures HeaderChar(format[i])
      {
        assert format[i] == h[i + 6];
      }
    }
  }

  /** A format with a line feed in it cannot be sent as a header. */
  lemma LineFeedRefused(format: string)
    requires '\n' in format
    ensures !HeaderValueOk(format) && !HeaderValueOk(ContentType(format))
  {
    var i :| 0 <= i < |format| && format[i] == '\n';
    assert !HeaderChar(format[i]);
    ContentTypeValidIff(format);
  }

  /** Every format the upload form offers makes an acceptable header. */
  lemma ClientFormatsLabelled()
    ensures forall f :: f in ClientFormats ==> HeaderValueOk(ContentType(f))
  {
    forall f | f in ClientFormats
      ensures HeaderValueOk(ContentType(f))
    {
      ContentTypeValidIff(f);
    }
  }

  /** The registered media type of what an encoder writes. */
  function MediaType(e: Encoder): string {
    match e
    case WebP => "image/webp"
    case Jpeg => "image/jpeg"
    case Png => "image/png"
  }

  /** Negotiation is settled: feeding the negotiated format back in changes nothing. */
  lemma RequestedFormatIdempotent(field: Option<string>)
    ensures RequestedFormat(Some(RequestedFormat(field))) == RequestedFormat(field)
  {
  }

  /**
    Dispatch is total and picks JPEG exactly for `jpeg` and `jpg`, PNG
    exactly for `png`, and WebP for every other string, always at quality 80.
   */
  lemma DispatchCases(format: string)
    ensures Dispatch(format).encoder == Jpeg <==> format == "jpeg" || format == "jpg"
    ensures Dispatch(format).encoder == Png <==> format == "png"
    ensures Dispatch(format).encoder == WebP <==> format !in {"jpeg", "jpg", "png"}
    ensures Dispatch(format).quality == 80
  {
  }

  /**
    The `Content-Type` agrees with the bytes actually produced exactly when
    the format is `webp`, `jpeg` or `png`: `jpg` yields JPEG bytes labelled
    `image/jpg`, and any unhandled format yields WebP bytes labelled with
    that format.
   */
  lemma {:induction false} HeaderTruthfulIff(format: string)
    ensures ContentType(format) == MediaType(Dispatch(format).encoder)
      <==> format in {"webp", "jpeg", "png"}
  {
    var m := MediaType(Dispatch(format).encoder);
    if ContentType(format) == m {
      assert m == "image/" + m[6..];
      assert format == m[6..];
    }
  }

  /**
    Of the formats the upload form offers, `avif` is the one labelled
    falsely: it is encoded as WebP but sent as `image/avif`.
   */
  lemma AvifMislabelled()
    ensures "avif" in ClientFormats
    ensures Dispatch("avif").encoder == WebP
    ensures ContentType("avif") == "image/avif" != MediaType(WebP)
    ensures forall f :: f in ClientFormats && f != "avif" ==>
      ContentType(f) == MediaType(Dispatch(f).encoder)
  {
    forall f | f in ClientFormats && f != "avif"
      ensures ContentType(f) == MediaType(Dispatch(f).encoder)
    {
      HeaderTruthfulIff(f);
    }
  }
}

=== FILE: options.dfy ===
/** Optional values: how the route sees a form field or file part that may be absent. */
module Options {

  datatype Option<+T> = None | Some(value: T)
}

=== FILE: paths.dfy ===
/**
  The part of Node's POSIX `path` module the upload route relies on:
  `path.join` of an absolute directory with a file name, `path.dirname`
  and `path.extname`. An absolute normalised path is kept as the sequence
  of its segments below the root, so `/srv/uploads` is `["srv", "uploads"]`.
 */
module Paths {

  type Path = seq<string>

  /** A segment `path.normalize` keeps as it is: non-empty, slash-free, not `.` or `..`. */
  predicate PlainSegment(s: string) {
    s != "" && s != "." && s != ".." && '/' !in s
  }

  /** An absolute path already in normal form. */
  predicate Normal(p: Path) {
    forall i :: 0 <= i < |p| ==> PlainSegment(p[i])
  }

  /** The pieces of `s` between slashes (`"a//b/"` gives `["a", "", "b", ""]`). */
  function Split(s: string): (parts: seq<string>)
    ensures |parts| >= 1
    ensures forall i :: 0 <= i < |parts| ==> '/' !in parts[i]
  {
    if s == [] then [""]
    else
      var rest := Split(s[1..]);
      if s[0] == '/' then [""] + rest else [[s[0]] + rest[0]] + rest[1..]
  }

  /** The pieces glued back together with slashes. */
  function Unsplit(parts: seq<string>): string
    requires |parts| >= 1
  {
    if |parts| == 1 then parts[0] else parts[0] + "/" + Unsplit(parts[1..])
  }

  /** Splitting loses nothing: gluing the pieces back gives the original text. */
  lemma {:induction false} UnsplitSplit(s: string)
    ensures Unsplit(Split(s)) == s
  {
    if s != [] {
      var rest := Split(s[1..]);
      UnsplitSplit(s[1..]);
      if s[0] != '/' && |rest| > 1 {
        assert Unsplit(rest) == rest[0] + "/" + Unsplit(rest[1..]);
        assert Split(s)[1..] == rest[1..];
      }
    }
  }

  /** Text without a slash is a single piece. */
  lemma {:induction false} SplitSlashFree(s: string)
    requires '/' !in s
    ensures Split(s) == [s]
  {
    if s != [] {
      assert s[0] != '/';
      assert '/' !in s[1..] by {
        assert forall i :: 0 <= i < |s[1..]| ==> s[1..][i] == s[i + 1];
      }
      SplitSlashFree(s[1..]);
      assert [s[0]] + s[1..] == s;
    }
  }

  /** A slash between two texts separates their pieces. */
  lemma {:induction false} SplitAroundSlash(a: string, b: string)
    ensures Split(a + "/" + b) == Split(a) + Split(b)
  {
    if a == [] {
      assert a + "/" + b == "/" + b;
    } else {
      assert (a + "/" + b)[1..] == a[1..] + "/" + b;
      SplitAroundSlash(a[1..], b);
    }
  }

  /** Walks the slash-free pieces of a relative path from `dir` the way `path.normalize` does. */
  function Resolve(dir: Path, parts: seq<string>): (p: Path)
    requires Normal(dir)
    requires forall i :: 0 <= i < |parts| ==> '/' !in parts[i]
    ensures Normal(p)
    decreases |parts|
  {
    if parts == [] then dir
    else
      var s := parts[0];
      var next :=
        if s == "" || s == "." then dir
        else if s == ".." then (if dir == [] then dir else dir[..|dir| - 1])
        else dir + [s];
      Resolve(next, parts[1..])
  }

  /**
    `path.join(dir, name)` for an absolute normalised `dir`: a plain file
    name lands directly inside `dir`, and `..` climbs to its parent.
   */
  function Join(dir: Path, name: string): (p: Path)
    requires Normal(dir)
    ensures Normal(p)
    ensures PlainSegment(name) ==> p == dir + [name]
    ensures name == ".." ==> p == Dirname(dir)
  {
    if '/' in name then Resolve(dir, Split(name))
    else
      SplitSlashFree(name);
      assert PlainSegment(name) ==> Resolve(dir, [name]) == Resolve(dir + [name], []);
      assert name == ".." ==> Resolve(dir, [name]) == Resolve(Dirname(dir), []);
      Resolve(dir, Split(name))
  }

  /** `path.dirname`: the directory holding `p` (the root is its own directory). */
  function Dirname(p: Path): (d: Path)
    ensures |p| > 0 ==> p == d + [p[|p| - 1]]
    ensures |p| == 0 ==> d == []
  {
    if p == [] then p else p[..|p| - 1]
  }

  /** `p` names an entry directly inside directory `dir`. */
  predicate DirectlyIn(p: Path, dir: Path) {
    |p| == |dir| + 1 && p[..|dir|] == dir
  }

  /** `p` lies somewhere below `dir`. */
  predicate Below(p: Path, dir: Path) {
    |p| > |dir| && p[..|dir|] == dir
  }

  /** Index of the last `c` in `s`, or -1 when there is none. */
  function LastIndexOf(s: string, c: char): (k: int)
    ensures -1 <= k < |s|
    ensures k >= 0 ==> s[k] == c
    ensures forall j :: k < j < |s| ==> s[j] != c
  {
    if s == [] then -1
    else if s[|s| - 1] == c then |s| - 1
    else LastIndexOf(s[..|s| - 1], c)
  }

  /** The text with every trailing slash removed. */
  function TrimTrailingSlashes(s: string): (t: string)
    ensures t <= s
    ensures t == [] || t[|t| - 1] != '/'
  {
    if s != [] && s[|s| - 1] == '/' then TrimTrailingSlashes(s[..|s| - 1]) else s
  }

  /** The last path component of `s`, as `path.basename` would see it. */
  function LastComponent(s: string): (b: string)
    ensures '/' !in b
  {
    var parts := Split(TrimTrailingSlashes(s));
    parts[|parts| - 1]
  }

  /**
    `path.extname`: the last component's text from its last dot on, except
    that a component without a dot, one whose only leading dot is its last
    (a hidden name such as `.bashrc`), and `..` have no extension.
   */
  function ExtName(s: string): string {
    var b := LastComponent(s);
    var k := LastIndexOf(b, '.');
    if k <= 0 || b == ".." then "" else b[k..]
  }

  /** What an extension looks like: empty, or a dot followed by dot-free, slash-free text. */
  predicate ExtensionShape(e: string) {
    e == [] || (e[0] == '.' && '.' !in e[1..] && '/' !in e)
  }

  /**
    The extension is a suffix of the last component, shaped as above, and
    it is empty exactly when the component is `..` or has no dot after its
    first character.
   */
  lemma ExtNameShape(s: string)
    ensures ExtensionShape(ExtName(s))
    ensures var b := LastComponent(s); var e := ExtName(s);
      |e| <= |b| && b[|b| - |e|..] == e
    ensures var b := LastComponent(s);
      ExtName(s) == [] <==> (b == ".." || forall i :: 0 < i < |b| ==> b[i] != '.')
  {
    var b := LastComponent(s);
    var k := LastIndexOf(b, '.');
    if k > 0 && b != ".." {
      var e := b[k..];
      assert e[0] == '.';
      assert '.' !in e[1..] by {
        assert forall i :: 0 <= i < |e[1..]| ==> e[1..][i] == b[k + 1 + i];
      }
      assert '/' !in e by {
        assert forall i :: 0 <= i < |e| ==> e[i] == b[k + i];
      }
      assert b[|b| - |e|..] == e;
    }
  }
}

=== FILE: unlink.dfy ===
/**
  The route's best-effort delete: up to `maxRetries` unlink attempts, a
  missing file counting as deleted, a linearly growing wait between failed
  attempts, one log line when every attempt failed, and never an error for
  the caller. What the filesystem answers to attempt `i` is the oracle
  `outcomeAt(i)`.
 */
module Unlink {
  import opened Paths

  /** The answer of one unlink call. */
  datatype Attempt = Ok | Enoent | OtherErr

  datatype Ending =
    | Deleted      // an attempt removed the file
    | WasAbsent    // an attempt found no file: counted as deleted
    | GaveUp       // every attempt failed otherwise: the failure is logged
    | NoAttempts   // a retry budget of zero: nothing is tried, nothing logged

  /** What a call did: the answers it saw, the waits it requested in milliseconds, how it ended. */
  datatype UnlinkRun = UnlinkRun(outcomes: seq<Attempt>, waits: seq<nat>, ending: Ending) {
    /** The single log line is written exactly for a run that gave up. */
    predicate Logged() {
      ending == GaveUp
    }
  }

  const DefaultMaxRetries: nat := 3
  const DefaultDelay: nat := 100

  /** A run that starts at attempt `i`: the answers `outcomeAt(i)`, `outcomeAt(i + 1)`, ... in order. */
  predicate RunFrom(r: UnlinkRun, i: nat, maxRetries: nat, delay: nat, outcomeAt: nat -> Attempt)
  {
    && 1 <= |r.outcomes| <= maxRetries - i
    && (forall k :: 0 <= k < |r.outcomes| ==> r.outcomes[k] == outcomeAt(i + k))
    && (forall k :: 0 <= k < |r.outcomes| - 1 ==> r.outcomes[k] == OtherErr)
    && |r.waits| == |r.outcomes| - 1
    && (forall k :: 0 <= k < |r.waits| ==> r.waits[k] == delay * (i + k + 1))
    && var last := r.outcomes[|r.outcomes| - 1];
       && (r.ending == Deleted <==> last == Ok)
       && (r.ending == WasAbsent <==> last == Enoent)
       && (r.ending == GaveUp <==> last == OtherErr)
       && (r.ending == GaveUp ==> |r.outcomes| == maxRetries - i)
  }

  /** The attempts from `i` on, for a budget that still allows attempt `i`. */
  function AttemptsFrom(i: nat, maxRetries: nat, delay: nat, outcomeAt: nat -> Attempt): (r: UnlinkRun)
    requires i < maxRetries
    ensures RunFrom(r, i, maxRetries, delay, outcomeAt)
    decreases maxRetries - i
  {
    match outcomeAt(i)
    case Ok => UnlinkRun([Ok], [], Deleted)
    case Enoent => UnlinkRun([Enoent], [], WasAbsent)
    case OtherErr =>
      if i == maxRetries - 1 then UnlinkRun([OtherErr], [], GaveUp)
      else
        var rest := AttemptsFrom(i + 1, maxRetries, delay, outcomeAt);
        FailedThenRest(rest, i, maxRetries, delay, outcomeAt);
        UnlinkRun([OtherErr] + rest.outcomes, [delay * (i + 1)] + rest.waits, rest.ending)
  }

  /** A failure at attempt `i`, a wait, then a run from `i + 1`, is a run from `i`. */
  lemma FailedThenRest(rest: UnlinkRun, i: nat, maxRetries: nat, delay: nat, outcomeAt: nat -> Attempt)
    requires outcomeAt(i) == OtherErr
    requires RunFrom(rest, i + 1, maxRetries, delay, outcomeAt)
    ensures RunFrom(UnlinkRun([OtherErr] + rest.outcomes, [delay * (i + 1)] + rest.waits, rest.ending),
                    i, maxRetries, delay, outcomeAt)
  {
    var os := [OtherErr] + rest.outcomes;
    var ws := [delay * (i + 1)] + rest.waits;
    assert os[|os| - 1] == rest.outcomes[|rest.outcomes| - 1];
    forall k | 1 <= k < |os|
      ensures os[k] == rest.outcomes[k - 1] == outcomeAt(i + k)
    {
      assert rest.outcomes[k - 1] == outcomeAt(i + 1 + (k - 1));
    }
    forall k | 1 <= k < |ws|
      ensures ws[k] == rest.waits[k - 1] == delay * (i + k + 1)
    {
      assert rest.waits[k - 1] == delay * (i + 1 + (k - 1) + 1);
    }
  }

  /** The whole call, as a function of the budget, the base delay and the filesystem's answers. */
  function SafeUnlinkRun(maxRetries: nat, delay: nat, outcomeAt: nat -> Attempt): (r: UnlinkRun)
    ensures maxRetries == 0 <==> r.ending == NoAttempts
    ensures maxRetries == 0 ==> r.outcomes == [] && r.waits == []
    ensures maxRetries > 0 ==> RunFrom(r, 0, maxRetries, delay, outcomeAt)
  {
    if maxRetries == 0 then UnlinkRun([], [], NoAttempts)
    else AttemptsFrom(0, maxRetries, delay, outcomeAt)
  }

  /**
    The call in the shape of the source's loop: attempt, return on success
    or on a missing file, log and return after the last attempt, otherwise
    wait `delay * (i + 1)` and go round again.
   */
  method SafeUnlink(maxRetries: nat, delay: nat, outcomeAt: nat -> Attempt) returns (r: UnlinkRun)
    ensures maxRetries == 0 <==> r.ending == NoAttempts
    ensures maxRetries == 0 ==> r.outcomes == [] && r.waits == []
    ensures maxRetries > 0 ==> RunFrom(r, 0, maxRetries, delay, outcomeAt)
  {
    var outcomes: seq<Attempt> := [];
    var waits: seq<nat> := [];
    var i: nat := 0;
    while i < maxRetries
      invariant maxRetries > 0 ==> i < maxRetries
      invariant |outcomes| == i && |waits| == i
      invariant forall k :: 0 <= k < i ==> outcomes[k] == outcomeAt(k) && outcomes[k] == OtherErr
      invariant forall k :: 0 <= k < i ==> waits[k] == delay * (k + 1)
      decreases maxRetries - i
    {
      var o := outcomeAt(i);
      if o == Ok {
        return UnlinkRun(outcomes + [Ok], waits, Deleted);
      }
      if o == Enoent {
        return UnlinkRun(outcomes + [Enoent], waits, WasAbsent);
      }
      if i == maxRetries - 1 {
        return UnlinkRun(outcomes + [OtherErr], waits, GaveUp);
      }
      outcomes := outcomes + [OtherErr];
      waits := waits + [delay * (i + 1)];
      i := i + 1;
    }
    return UnlinkRun([], [], NoAttempts);
  }

  /**
    The description of a run determines it: two runs that both answer the
    same budget, delay and filesystem answers are the same run. So the loop
    above and `SafeUnlinkRun` compute the same thing.
   */
  lemma RunFromUnique(r1: UnlinkRun, r2: UnlinkRun, i: nat, maxRetries: nat, delay: nat, outcomeAt: nat -> Attempt)
    requires RunFrom(r1, i, maxRetries, delay, outcomeAt)
    requires RunFrom(r2, i, maxRetries, delay, outcomeAt)
    ensures r1 == r2
  {
    var n1, n2 := |r1.outcomes|, |r2.outcomes|;
    var m := if n1 < n2 then n1 else n2;
    assert r1.outcomes[m - 1] == outcomeAt(i + m - 1) == r2.outcomes[m - 1];
    assert n1 == n2;
    assert r1.outcomes == r2.outcomes by {
      forall k | 0 <= k < n1
        ensures r1.outcomes[k] == r2.outcomes[k]
      {
        assert r1.outcomes[k] == outcomeAt(i + k);
      }
    }
    assert r1.waits == r2.waits;
  }

  /** The loop and the recursive description agree on every input. */
  lemma LoopMatchesRecursion(maxRetries: nat, delay: nat, outcomeAt: nat -> Attempt, r: UnlinkRun)
    requires maxRetries == 0 ==> r == UnlinkRun([], [], NoAttempts)
    requires maxRetries > 0 ==> RunFrom(r, 0, maxRetries, delay, outcomeAt)
    ensures r == SafeUnlinkRun(maxRetries, delay, outcomeAt)
  {
    if maxRetries > 0 {
      RunFromUnique(r, SafeUnlinkRun(maxRetries, delay, outcomeAt), 0, maxRetries, delay, outcomeAt);
    }
  }

  /**
    With a positive budget the call settles (deleted or already absent)
    iff some attempt within the budget answers other than `OtherErr`, and
    then it makes exactly one attempt more than the number of failures
    before the first such answer; it gives up, logging once, iff all
    `maxRetries` attempts fail otherwise.
   */
  lemma SettlesIffSomeAttemptSucceeds(maxRetries: nat, delay: nat, outcomeAt: nat -> Attempt)
    requires maxRetries > 0
    ensures var r := SafeUnlinkRun(maxRetries, delay, outcomeAt);
      (r.ending in {Deleted, WasAbsent}) <==> exists k :: 0 <= k < maxRetries && outcomeAt(k) != OtherErr
    ensures var r := SafeUnlinkRun(maxRetries, delay, outcomeAt);
      r.Logged() <==> forall k :: 0 <= k < maxRetries ==> outcomeAt(k) == OtherErr
    ensures var r := SafeUnlinkRun(maxRetries, delay, outcomeAt);
      r.ending != GaveUp ==>
        outcomeAt(|r.outcomes| - 1) != OtherErr
        && forall k :: 0 <= k < |r.outcomes| - 1 ==> outcomeAt(k) == OtherErr
  {
    var r := SafeUnlinkRun(maxRetries, delay, outcomeAt);
    var n := |r.outcomes|;
    assert r.outcomes[n - 1] == outcomeAt(n - 1);
    forall k | 0 <= k < n - 1
      ensures outcomeAt(k) == OtherErr
    {
      assert r.outcomes[k] == outcomeAt(k);
    }
    if r.ending == GaveUp {
      forall k | 0 <= k < maxRetries
        ensures outcomeAt(k) == OtherErr
      {
        assert r.outcomes[k] == outcomeAt(k);
      }
    }
  }

  /** No wait follows the final attempt, and the total waiting never exceeds delay * (1 + ... + (maxRetries - 1)). */
  lemma WaitsBounded(maxRetries: nat, delay: nat, outcomeAt: nat -> Attempt)
    ensures var r := SafeUnlinkRun(maxRetries, delay, outcomeAt);
      |r.waits| < maxRetries || maxRetries == 0
    ensures var r := SafeUnlinkRun(maxRetries, delay, outcomeAt);
      forall k :: 0 <= k < |r.waits| ==> r.waits[k] <= delay * (maxRetries - 1)
  {
    var r := SafeUnlinkRun(maxRetries, delay, outcomeAt);
    forall k | 0 <= k < |r.waits|
      ensures r.waits[k] <= delay * (maxRetries - 1)
    {
      assert k + 1 <= maxRetries - 1;
      MulMonotone(delay, k + 1, maxRetries - 1);
    }
  }

  lemma MulMonotone(d: nat, a: nat, b: nat)
    requires a <= b
    ensures d * a <= d * b
  {
  }

  /** A set of existing files. */
  type FileSystem = set<Path>

  /**
    The answers a file system gives to repeated unlinks of `p`: a missing
    file answers ENOENT; an existing one is removed unless `fault(i)` makes
    attempt `i` fail otherwise (a busy or protected file), which leaves it
    in place.
   */
  function Answers(fs: FileSystem, p: Path, fault: nat -> bool): nat -> Attempt {
    (i: nat) => if p !in fs then Enoent else if fault(i) then OtherErr else Ok
  }

  /** The file system after a call, and what the call did. */
  datatype Deletion = Deletion(files: FileSystem, run: UnlinkRun)

  /** Every attempt within the default budget is made to fail by the fault pattern. */
  predicate EveryAttemptFaults(fault: nat -> bool) {
    forall i :: 0 <= i < DefaultMaxRetries ==> fault(i)
  }

  /** Against an existing file the answers are all failures exactly when the faults say so. */
  lemma GivesUpIffFaulted(fs: FileSystem, p: Path, fault: nat -> bool)
    ensures SafeUnlinkRun(DefaultMaxRetries, DefaultDelay, Answers(fs, p, fault)).Logged()
      <==> p in fs && EveryAttemptFaults(fault)
  {
    var answers := Answers(fs, p, fault);
    SettlesIffSomeAttemptSucceeds(DefaultMaxRetries, DefaultDelay, answers);
    if p !in fs {
      assert answers(0) != OtherErr;
    } else {
      assert forall i :: 0 <= i < DefaultMaxRetries ==> (answers(i) == OtherErr <==> fault(i));
    }
  }

  /**
    `safeUnlink(p)` with the default budget against a file system: it
    removes `p` and nothing else, unless every attempt failed, in which case
    nothing changes and the failure is logged. It gives up exactly when the
    file exists and all three attempts meet a fault.
   */
  function DeleteFile(fs: FileSystem, p: Path, fault: nat -> bool): (d: Deletion)
    ensures d.files == fs - {p} || d.files == fs
    ensures p !in d.files <==> !d.run.Logged()
    ensures d.run.Logged() <==> p in fs && EveryAttemptFaults(fault)
    ensures d.run.Logged() ==> d.files == fs && |d.run.outcomes| == DefaultMaxRetries
    ensures p !in fs ==> d == Deletion(fs, UnlinkRun([Enoent], [], WasAbsent))
  {
    var run := SafeUnlinkRun(DefaultMaxRetries, DefaultDelay, Answers(fs, p, fault));
    assert run.outcomes[0] == Answers(fs, p, fault)(0);
    GivesUpIffFaulted(fs, p, fault);
    Deletion(if run.ending == Deleted then fs - {p} else fs, run)
  }

  /**
    Deleting is idempotent: once a call has not given up, calling it again
    on the same path changes nothing, logs nothing and waits for nothing.
   */
  lemma DeleteIdempotent(fs: FileSystem, p: Path, fault1: nat -> bool, fault2: nat -> bool)
    requires !DeleteFile(fs, p, fault1).run.Logged()
    ensures var once := DeleteFile(fs, p, fault1).files;
      var twice := DeleteFile(once, p, fault2);
      twice.files == once && !twice.run.Logged() && twice.run.waits == []
  {
  }
}
